=== FILE: README.md ===
# Two-party chat handlers: room keys, send validation and pull pagination

This project models the request handlers of a small two-party chat service
(`rpc-server/handler.go`) and proves properties of the model.

- **Room keys** (`getRoomID`). A chat is written `user1:user2`. The key of its
  storage partition is the chat lower-cased, split on `:`, with the two participants
  emitted in ascending lexicographic order as `min:max`. A chat that does not split
  into exactly two pieces is rejected.
- **Send** (`validateSendRequest`, `Send`). The raw chat, with its case kept, must
  split into exactly two pieces. The sender must be one of them exactly. Only then is
  the message, stamped with the current time, inserted under the room key. A store
  error is passed back unchanged.
- **Pull**. A limit of 0 means 20. The store is asked for positions `cursor` to
  `cursor + limit`, both inclusive, which is one item more than a page. The page is
  the first `limit` items. `hasMore` is set when an item is left over, and
  `nextCursor` is then `cursor + limit`; otherwise it is 0.

Modules, one concept each:

- `Results` (`results.dfy`): `Option`, `Result` and `Outcome`, in place of Go's
  `(value, error)` pairs.
- `Model` (`model.dfy`): `int64`/`int32` as subset types, the `Error` kinds, the
  stored `Message`, the RPC `RpcMessage`, and `int64` wrap-around.
- `Strings` (`strings.dfy`): the parts of Go's `strings` package the handlers use.
  These are `ToLower` (ASCII letters), `Split` on one character and `Compare`. `Join`
  stands for the `fmt.Sprintf("%s:%s", …)` that builds the key at
  `rpc-server/handler.go:45` and `:47`.
  The file also holds their algebra: split/join round trips, colon counts, and
  `Compare` against a reference lexicographic order.
- `Room` (`room.dfy`): `GetRoomId` and its properties.
- `Handler` (`handler.dfy`): `ValidateSendRequest`, `Send` and `Pull`. The page
  loop appears twice: as a recursive function (`Paginate`) and as the loop itself
  (`CollectPage`). Both are proved against one closed-form description (`IsPageOf`).
- `MemoryStore` (`memstore.dfy`): an in-memory stand-in for the message store.
  It reads windows by rank, as Redis `ZRANGE`/`ZREVRANGE` do. It is used to state
  what a sequence of `Send` and `Pull` calls observes.

The store is a parameter. `Send` takes a map from room key to the room's messages,
plus the store's reply to the insertion (`None` for success, `Some(e)` for a
failure). `Pull` takes a function from the requested window to the store's reply.
The clock is the `now` argument of `Send`.

A chat with an empty participant such as `":bob"` is accepted, because `getRoomID`
(`rpc-server/handler.go:36`) only checks that there are two pieces;
`Room.RoomIdAcceptsEmptyParticipant` states it.

## Model

| member | source | states |
|---|---|---|
| Room.GetRoomId | rpc-server/handler.go:31-51 | fails exactly when the chat does not contain exactly one `:`, with an error naming the raw chat; a key it returns contains no upper-case letter |
| Room.RoomIdCanonical | rpc-server/handler.go:41-50 | a returned key splits back into exactly two pieces joined by `:`; the pieces are in lexicographic order and are, as a multiset, the two lower-cased participants |
| Room.RoomIdOfPair | rpc-server/handler.go:34-50 | for participants without `:`, the key of `a:b` is the lower-cased participants with the smaller first |
| Room.RoomIdSymmetric | rpc-server/handler.go:42-48 | `a:b` and `b:a` are accepted or rejected together, and give the same key when accepted |
| Room.RoomIdCaseInsensitive | rpc-server/handler.go:34-35 | a chat and its lower-cased form are accepted or rejected together, and give the same key |
| Room.RoomIdRejectsMalformed | rpc-server/handler.go:35-39 | `""`, `"a"` and `"a:b:c"` are rejected as invalid chats |
| Room.RoomIdAcceptsEmptyParticipant | rpc-server/handler.go:35-39 | `":bob"` is accepted with key `":bob"`: empty participants are not rejected |
| Room.RoomIdNormalises | rpc-server/handler.go:34-48 | `"Bob:alice"` has key `"alice:bob"` |
| Strings.Split | rpc-server/handler.go:16-17 | splitting gives one piece more than there are separators, and no piece contains the separator |
| Strings.JoinSplit | rpc-server/handler.go:35 | joining the pieces of a split with the separator gives back the split string |
| Strings.SplitJoin | rpc-server/handler.go:45-47 | separator-free pieces joined with the separator split back into the same pieces |
| Strings.ToLower | rpc-server/handler.go:34 | lower-casing keeps the length and changes only the upper-case ASCII letters; the result has no upper-case letter (`ToLowerNoUpper`), lower-casing twice is lower-casing once (`ToLowerIdempotent`), and the number of `:` is kept (`ToLowerKeepsColons`) |
| Strings.ToLowerKeepsColons | rpc-server/handler.go:34-36 | lower-casing neither adds nor removes a `:`, so it does not change how many pieces a chat splits into |
| Strings.Compare | rpc-server/handler.go:43-44 | the comparison is -1, 0 or 1, and 0 exactly when the strings are equal |
| Strings.CompareAntisymmetric | rpc-server/handler.go:43-48 | swapping the arguments negates the comparison |
| Strings.CompareIsLexOrder | rpc-server/handler.go:43-44 | the comparison is at most 0 exactly when the first string is a prefix of the second or is smaller at the first position where they differ |
| Handler.ValidateSendRequest | rpc-server/handler.go:15-29 | passes exactly when the raw chat contains one `:` and starts with `sender:` or ends with `:sender` (case-sensitive); otherwise fails with an invalid-chat error or a sender-not-in-room error, as the source does |
| Handler.ValidSendHasRoom | rpc-server/handler.go:54-72 | a request that passes validation always has a room key, and the lower-cased sender is one of the two participants that key names |
| Handler.Send | rpc-server/handler.go:53-82 | a validation error or a store error is returned unchanged and leaves the store untouched; on success exactly one message (sender, text, `now`) is appended to the room, no other room changes, and the reply is code 0, "success" |
| Handler.SendErrorsAreValidationOrStore | rpc-server/handler.go:69-77 | every error `Send` returns is the validation error or the store's error; the room-key error branch is never taken |
| Handler.Paginate | rpc-server/handler.go:103-124 | the item-by-item page loop yields the first `min(n, max(limit, 0))` items, each carrying the request's chat and the stored text, sender and time; `hasMore` holds exactly when `n > max(limit, 0)`, and `nextCursor` is the window end then and 0 otherwise |
| Handler.CollectPage | rpc-server/handler.go:103-124 | the page loop as written (counter, break on the first surplus item) meets the same page description and equals `Paginate` |
| Handler.PageUnique | rpc-server/handler.go:103-133 | the page description determines the page completely |
| Handler.Pull | rpc-server/handler.go:84-136 | a room-key error or a store error is returned unchanged; otherwise the store is asked for `[cursor, cursor + limit]` (limit 0 read as 20, end wrapped to `int64`) on the key's room with the request's order, and the reply is code 0, "success" with the page cut from that answer |
| Handler.PullDefaultLimit | rpc-server/handler.go:90-93 | a pull with limit 0 is the same as a pull with limit 20 |
| Handler.PullEmptyRoom | rpc-server/handler.go:103-135 | when the store answers the requested window with no messages, the reply has no messages, `hasMore` false, `nextCursor` 0 and code 0 |
| Model.WrapInt64 | rpc-server/handler.go:95 | `cursor + limit` is the mathematical sum whenever that fits in `int64`, and otherwise differs from it by a multiple of 2^64 |
| MemoryStore.ReverseRanks | rpc-server/redis.go:81-95 | a descending window of ranks `a` to `b` is the ascending window of ranks `n-1-b` to `n-1-a` read backwards, so `ZREVRANGE` and `ZRANGE` see the same room from opposite ends |
| MemoryStore.RangeByRank | rpc-server/redis.go:84-91 | for non-negative ranks, a window is the run of items from `start` through `stop` that exist |
| MemoryStore.Fetch | rpc-server/redis.go:74-110 | the stand-in store answers every window, and only with messages of the window's room |
| MemoryStore.PullFromMemory | rpc-server/handler.go:90-124 | a pull from a non-negative cursor with a non-negative limit, when `cursor + limit` (limit 0 read as 20) fits in `int64`, serves the items from that cursor on, at most one page of them; it reports more exactly when items lie beyond the page, and then points the next cursor just past the page |
| MemoryStore.ConsecutivePages | rpc-server/handler.go:108-112 | for a positive limit, two replies each serving one page, the second from the first's `nextCursor`, together list the items from the first cursor on, in order, `min(remaining, 2 * limit)` of them: none skipped and none repeated |
| MemoryStore.PagesTile | rpc-server/handler.go:94-112 | with a non-negative cursor and limit, when `cursor + 2·limit` (limit 0 read as 20) fits in `int64`: for a pull that reports more and the pull made at its `nextCursor`, the two pages together are the room's items from the first cursor on, in order, with none skipped or repeated |
| MemoryStore.BothPagesServe | rpc-server/handler.go:94-124 | with a non-negative cursor and limit, when `cursor + 2·limit` (limit 0 read as 20) fits in `int64`: a pull that reports more, and the pull at its `nextCursor`, each serve one page of the room from their own cursor |
| MemoryStore.PageOfRankWindow | rpc-server/handler.go:103-124 | a page cut from a rank window `[c, c + limit]` is the items from position `c` on, at most `limit` of them, with `hasMore` exactly when items lie beyond the page |
| MemoryStore.TwentyFiveMessages | rpc-server/handler.go:90-124 | with 25 messages, the pull of 20 from 0 returns 20 with `hasMore` and next cursor 20; the pull from 20 returns 5, no more, next cursor 0 |
| MemoryStore.PullFromEmptyRoom | rpc-server/handler.go:94-135 | a pull from a room with no messages, with any cursor and limit, is code 0 with no messages, `hasMore` false and `nextCursor` 0 |
| MemoryStore.PullReverseNewestFirst | rpc-server/redis.go:81-95 | a reversed pull from 0 with a non-negative limit lists the room newest first |
| MemoryStore.SendThenPull | rpc-server/handler.go:53-124 | a message sent and then pulled, with any non-negative limit (0 read as 20) such that the room's length plus the limit fits in `int64`, at the position the stand-in store appended it to, comes back alone with the same sender, text and time, under any spelling of the chat that has the same room key |

## Left out

- Connection setup, JSON encoding and decoding, and the `float64` score conversion in
  `rpc-server/redis.go` are not modelled. A store failure of any kind, including a
  payload that does not decode, is the `Err` reply of the store parameter.
- Handler.Send: the insertion appends to the room's sequence. The real store is a
  sorted set: it places an entry by its score and merges a member identical to one
  already present (same sender, text and second). Both are store behaviour that the
  handler does not see.
- MemoryStore.RangeByRank: states the window only for non-negative ranks. These are the
  ones a pull with a non-negative cursor and limit asks for when `cursor + limit` fits
  in `int64`; past the top of `int64` the window end wraps to a negative rank. Its body
  follows the Redis rank rules for negative ranks too, but no contract is stated for
  them.
- `strings.ToLower` is modelled on ASCII letters only. Full Unicode case mapping is
  not modelled. The facts the room-key proofs rest on hold for Go's Unicode
  `ToLower` too: it maps character by character (`ToLowerConcat`), it is idempotent
  (`ToLowerIdempotent`), and it never adds or removes a `:` (`ToLowerKeepsColons`).
- Go strings may hold invalid UTF-8, which Dafny strings cannot. Comparison is by
  code point, which agrees with Go's byte order on valid UTF-8.
- `time.Now()` is the `now` argument. `log.Printf`, `context.Context` and the global
  store client are left out. The pointer-valued `HasMore`/`NextCursor` fields are
  plain values.
- `rpc-server/handler_test.go` defines its own types and mock handlers that return
  fixed values, so it says nothing about the handlers modelled here.
- MemoryStore: the stand-in keeps each room's messages in the order they were sent,
  not in score (timestamp) order as the sorted set does; a message sent with an
  earlier `now` than one already stored is placed after it.
- MemoryStore.Fetch: never fails. Store errors and payloads that do not decode are not
  produced by the stand-in; `Pull`'s contract covers them through its store parameter.
- MemoryStore.PullFromMemory: stated only for a non-negative limit and a window end
  that does not overflow `int64`. With a negative limit the page is empty, `hasMore`
  is set whenever the store's window is non-empty, and `nextCursor` is the window end,
  so no description "the page from the cursor on" holds. `Handler.Pull` still states
  what the handler does then, through `IsPageOf`.
- MemoryStore.BothPagesServe: stated only for a non-negative limit and when
  `cursor + 2·limit` fits in `int64`, for the same reason as `PullFromMemory`.
- MemoryStore.PagesTile: stated only for a non-negative limit and when
  `cursor + 2·limit` fits in `int64`, for the same reason as `PullFromMemory`.
- MemoryStore.SendThenPull: stated only for a non-negative limit and when the room's
  length plus the limit fits in `int64`, for the same reason as `PullFromMemory`.
- MemoryStore.PullReverseNewestFirst: stated only for a non-negative limit, for the
  same reason as `PullFromMemory`.
- Concurrency between calls is not modelled: each call is one step over a store value.

=== FILE: handler.dfy ===
/** The two RPC handlers: `Send` validates a message and appends it to its room,
    `Pull` reads one page of a room. The message store is a parameter: for `Send` a
    map from room key to the room's messages together with the store's reply to the
    insertion, for `Pull` a function from the requested window to the store's reply. */
module Handler {
  import opened Results
  import opened Model
  import opened Strings
  import opened Room

  // ---------------------------------------------------------------- requests and responses

  /** The fields of a send request's message that the handler reads. */
  datatype SendRequest = SendRequest(chat: string, text: string, sender: string)

  datatype SendResponse = SendResponse(code: int, msg: string)

  datatype PullRequest = PullRequest(chat: string, cursor: Int64, limit: Int32, reverse: bool)

  datatype PullResponse = PullResponse(
    code: int,
    msg: string,
    messages: seq<RpcMessage>,
    hasMore: bool,
    nextCursor: Int64)

  /** The store: each room key to its messages, in store order. */
  type Store = map<string, seq<Message>>

  /** The store after a send, and the handler's reply. */
  datatype SendOutcome = SendOutcome(store: Store, response: Result<SendResponse, Error>)

  /** The range a pull asks the store for: positions `start` to `end`, both inclusive,
      newest first when `reverse` is set. */
  datatype Window = Window(room: string, start: Int64, end: Int64, reverse: bool)

  /** What the page loop of `Pull` produces. */
  datatype Page = Page(messages: seq<RpcMessage>, hasMore: bool, nextCursor: Int64)

  const SUCCESS_CODE: int := 0
  const SUCCESS_MSG: string := "success"
  const DEFAULT_LIMIT: int := 20

  function Min(a: int, b: int): int { if a <= b then a else b }
  function Max(a: int, b: int): int { if a >= b then a else b }

  /** The messages of a room; a room never written to has none. */
  function RoomLog(store: Store, room: string): seq<Message> {
    if room in store then store[room] else []
  }

  // ---------------------------------------------------------------- validation

  /** The pieces of a chat that holds exactly one `:` are the text on either side of it. */
  lemma OneColonChat(chat: string)
    requires CountChar(chat, SEP) == 1
    ensures var p := Split(chat, SEP); chat == p[0] + [SEP] + p[1]
  {
    JoinSplit(chat, SEP);
  }

  /** In `p0:p1` with `:`-free participants the only `:` is the one between them. */
  lemma OnlyColonBetween(p0: string, p1: string, i: int)
    requires SEP !in p0 && SEP !in p1
    requires 0 <= i < |p0| + 1 + |p1|
    requires (p0 + [SEP] + p1)[i] == SEP
    ensures i == |p0|
  {
  }

  /** `sender:` starts `p0:p1` exactly when the sender is `p0`, and `:sender` ends it
      exactly when the sender is `p1`. */
  lemma SenderPosition(p0: string, p1: string, sender: string)
    requires SEP !in p0 && SEP !in p1
    ensures sender + [SEP] <= p0 + [SEP] + p1 <==> sender == p0
    ensures EndsWith(p0 + [SEP] + p1, [SEP] + sender) <==> sender == p1
  {
    var c := p0 + [SEP] + p1;
    if sender + [SEP] <= c {
      assert c[|sender|] == SEP;
      OnlyColonBetween(p0, p1, |sender|);
      assert sender == c[..|p0|] == p0;
    }
    if EndsWith(c, [SEP] + sender) {
      var i := |c| - |sender| - 1;
      assert c[i] == ([SEP] + sender)[0] == SEP;
      OnlyColonBetween(p0, p1, i);
      assert sender == c[|c| - |sender|..] == p1;
    }
  }

  /** `validateSendRequest`: the raw chat (case preserved) must hold exactly one `:`,
      and the sender must be, exactly, the text before it or the text after it. */
  function ValidateSendRequest(req: SendRequest): (r: Outcome<Error>)
    ensures r.Pass? <==>
              && CountChar(req.chat, SEP) == 1
              && (req.sender + [SEP] <= req.chat || EndsWith(req.chat, [SEP] + req.sender))
    ensures r.Fail? && CountChar(req.chat, SEP) != 1 ==> r.error == InvalidChatId(req.chat)
    ensures r.Fail? && CountChar(req.chat, SEP) == 1 ==> r.error == SenderNotInRoom(req.sender)
  {
    var senders := Split(req.chat, SEP);
    if |senders| != 2 then
      Fail(InvalidChatId(req.chat))
    else
      OneColonChat(req.chat);
      SenderPosition(senders[0], senders[1], req.sender);
      if req.sender != senders[0] && req.sender != senders[1] then
        Fail(SenderNotInRoom(req.sender))
      else
        Pass
  }

  /** A request that passes validation always has a room key, and the lower-cased
      sender is one of the two participants the key names. */
  lemma ValidSendHasRoom(req: SendRequest)
    requires ValidateSendRequest(req).Pass?
    ensures GetRoomId(req.chat).Ok?
    ensures ToLower(req.sender) in Split(GetRoomId(req.chat).value, SEP)
  {
    var p := Split(req.chat, SEP);
    OneColonChat(req.chat);
    SenderPosition(p[0], p[1], req.sender);
    RoomIdOfPair(p[0], p[1]);
    var l0, l1 := ToLower(p[0]), ToLower(p[1]);
    assert SEP !in l0 && SEP !in l1 by {
      assert forall i :: 0 <= i < |l0| ==> l0[i] != SEP;
      assert forall i :: 0 <= i < |l1| ==> l1[i] != SEP;
    }
    SplitPair(l0, SEP, l1);
    SplitPair(l1, SEP, l0);
  }

  // ---------------------------------------------------------------- Send

  /** `Send`: validate, stamp the message with `now`, derive the room key and insert.
      `fault` is the store's reply to the insertion (`None` when it succeeds). */
  function Send(store: Store, req: SendRequest, now: Int64, fault: Option<Error>): (r: SendOutcome)
    ensures ValidateSendRequest(req).Fail? ==>
              r == SendOutcome(store, Err(ValidateSendRequest(req).error))
    ensures ValidateSendRequest(req).Pass? && fault.Some? ==>
              r == SendOutcome(store, Err(fault.value))
    ensures ValidateSendRequest(req).Pass? && fault.None? ==>
              && GetRoomId(req.chat).Ok?
              && var room := GetRoomId(req.chat).value;
              && r.response == Ok(SendResponse(SUCCESS_CODE, SUCCESS_MSG))
              && r.store.Keys == store.Keys + {room}
              && RoomLog(r.store, room)
                   == RoomLog(store, room) + [Message(req.sender, req.text, now)]
              && (forall k :: k in store && k != room ==> r.store[k] == store[k])
    ensures r.response.Err? ==> r.store == store
  {
    match ValidateSendRequest(req)
    case Fail(e) => SendOutcome(store, Err(e))
    case Pass =>
      var message := Message(req.sender, req.text, now);
      match GetRoomId(req.chat)
      case Err(e) => SendOutcome(store, Err(e))
      case Ok(room) =>
        match fault
        case Some(e) => SendOutcome(store, Err(e))
        case None =>
          SendOutcome(store[room := RoomLog(store, room) + [message]],
                      Ok(SendResponse(SUCCESS_CODE, SUCCESS_MSG)))
  }

  /** The room-key error branch of `Send` is unreachable: every error `Send` returns
      is the validation error or the store's error. */
  lemma SendErrorsAreValidationOrStore(store: Store, req: SendRequest, now: Int64,
                                       fault: Option<Error>)
    ensures var r := Send(store, req, now, fault);
            r.response.Err? ==>
              (ValidateSendRequest(req).Fail? && r.response.error == ValidateSendRequest(req).error)
              || (fault.Some? && r.response.error == fault.value)
  {
  }

  // ---------------------------------------------------------------- Pull

  /** A pull message: the stored fields, labelled with the chat as the caller wrote it. */
  function ToRpc(m: Message, chat: string): RpcMessage {
    RpcMessage(chat, m.text, m.sender, m.timestamp)
  }

  /** `page` is what a page of size `limit` must be when the store returned `fetched`
      for a window ending at `end`: the first `limit` items (none when `limit` is not
      positive), more pages exactly when an item is left over, and then `end` as
      the next cursor. */
  ghost predicate IsPageOf(page: Page, fetched: seq<Message>, limit: int, end: Int64,
                           chat: string) {
    && |page.messages| == Min(|fetched|, Max(limit, 0))
    && (forall i :: 0 <= i < |page.messages| ==>
          && page.messages[i].chat == chat
          && page.messages[i].text == fetched[i].text
          && page.messages[i].sender == fetched[i].sender
          && page.messages[i].sendTime == fetched[i].timestamp)
    && (page.hasMore <==> |fetched| > Max(limit, 0))
    && page.nextCursor == (if page.hasMore then end else 0)
  }

  /** At most one page satisfies `IsPageOf`. */
  lemma PageUnique(p: Page, q: Page, fetched: seq<Message>, limit: int, end: Int64, chat: string)
    requires IsPageOf(p, fetched, limit, end, chat)
    requires IsPageOf(q, fetched, limit, end, chat)
    ensures p == q
  {
    assert p.messages == q.messages;
  }

  /** The page loop of `Pull`, one item at a time: an item is emitted while the
      remaining allowance is at least one, and the first item past it sets `hasMore`. */
  function Paginate(fetched: seq<Message>, limit: int, end: Int64, chat: string): (p: Page)
    ensures IsPageOf(p, fetched, limit, end, chat)
    decreases |fetched|
  {
    if |fetched| == 0 then Page([], false, 0)
    else if 1 > limit then Page([], true, end)
    else
      var rest := Paginate(fetched[1..], limit - 1, end, chat);
      Page([ToRpc(fetched[0], chat)] + rest.messages, rest.hasMore, rest.nextCursor)
  }

  /** The page loop of `Pull` as written: iterate over the retrieved items, stop at
      the first one that would exceed `limit`. */
  method CollectPage(fetched: seq<Message>, limit: int, end: Int64, chat: string)
    returns (messages: seq<RpcMessage>, hasMore: bool, nextCursor: Int64)
    ensures IsPageOf(Page(messages, hasMore, nextCursor), fetched, limit, end, chat)
    ensures Page(messages, hasMore, nextCursor) == Paginate(fetched, limit, end, chat)
  {
    messages := [];
    var counter := 0;
    nextCursor := 0;
    hasMore := false;
    var i := 0;
    while i < |fetched|
      invariant 0 <= i <= |fetched|
      invariant counter == i == |messages|
      invariant counter <= Max(limit, 0)
      invariant forall j :: 0 <= j < i ==> messages[j] == ToRpc(fetched[j], chat)
      invariant !hasMore && nextCursor == 0
    {
      if counter + 1 > limit {
        hasMore := true;
        nextCursor := end;
        break;
      }
      messages := messages + [ToRpc(fetched[i], chat)];
      counter := counter + 1;
      i := i + 1;
    }
    PageUnique(Page(messages, hasMore, nextCursor), Paginate(fetched, limit, end, chat),
               fetched, limit, end, chat);
  }

  /** A zero limit means the default page size. */
  function EffectiveLimit(limit: Int32): int {
    if limit == 0 then DEFAULT_LIMIT else limit
  }

  /** `Pull`: derive the room key, ask `fetch` for positions `cursor` to
      `cursor + limit` (one more than a page), and cut the page from the reply. */
  function Pull(req: PullRequest, fetch: Window -> Result<seq<Message>, Error>)
    : (r: Result<PullResponse, Error>)
    ensures GetRoomId(req.chat).Err? ==> r == Err(GetRoomId(req.chat).error)
    ensures GetRoomId(req.chat).Ok? ==>
              var limit := if req.limit == 0 then DEFAULT_LIMIT else req.limit as int;
              var w := Window(GetRoomId(req.chat).value, req.cursor,
                              WrapInt64(req.cursor + limit), req.reverse);
              && (fetch(w).Err? ==> r == Err(fetch(w).error))
              && (fetch(w).Ok? ==>
                    && r.Ok?
                    && r.value.code == SUCCESS_CODE && r.value.msg == SUCCESS_MSG
                    && IsPageOf(Page(r.value.messages, r.value.hasMore, r.value.nextCursor),
                                fetch(w).value, limit, w.end, req.chat))
  {
    match GetRoomId(req.chat)
    case Err(e) => Err(e)
    case Ok(room) =>
      var w := RequestedWindow(req, room);
      match fetch(w)
      case Err(e) => Err(e)
      case Ok(fetched) =>
        var page := Paginate(fetched, EffectiveLimit(req.limit), w.end, req.chat);
        Ok(PullResponse(SUCCESS_CODE, SUCCESS_MSG, page.messages, page.hasMore, page.nextCursor))
  }

  /** The window a pull asks for once its room key is known. */
  function RequestedWindow(req: PullRequest, room: string): Window {
    Window(room, req.cursor, WrapInt64(req.cursor + EffectiveLimit(req.limit)), req.reverse)
  }

  /** Once the room key and the store's answer are known, the reply is the page that
      `Paginate` cuts from that answer. */
  lemma PullReply(req: PullRequest, fetch: Window -> Result<seq<Message>, Error>,
                  room: string, fetched: seq<Message>)
    requires GetRoomId(req.chat) == Ok(room)
    requires fetch(RequestedWindow(req, room)) == Ok(fetched)
    ensures var page := Paginate(fetched, EffectiveLimit(req.limit),
                                 RequestedWindow(req, room).end, req.chat);
            Pull(req, fetch) == Ok(PullResponse(SUCCESS_CODE, SUCCESS_MSG,
                                                page.messages, page.hasMore, page.nextCursor))
  {
  }

  /** A zero limit behaves exactly like a limit of 20. */
  lemma PullDefaultLimit(req: PullRequest, fetch: Window -> Result<seq<Message>, Error>)
    requires req.limit == 0
    ensures Pull(req, fetch) == Pull(req.(limit := 20), fetch)
  {
  }

  /** A store answering the requested window with no messages gives an empty page
      with no further pages. */
  lemma PullEmptyRoom(req: PullRequest, fetch: Window -> Result<seq<Message>, Error>)
    requires GetRoomId(req.chat).Ok?
    requires fetch(RequestedWindow(req, GetRoomId(req.chat).value)) == Ok([])
    ensures Pull(req, fetch) == Ok(PullResponse(SUCCESS_CODE, SUCCESS_MSG, [], false, 0))
  {
  }
}

=== FILE: memstore.dfy ===
/** An in-memory stand-in for the sorted-set message store, used to state what a
    sequence of `Send` and `Pull` calls observes. Each room's messages are kept in
    the order they were sent (the real store orders them by score). A window is read
    by rank, as Redis `ZRANGE` (ascending) and `ZREVRANGE` (descending) read it: both
    ends inclusive, negative ranks counted from the end, ranks past the end clamped. */
module MemoryStore {
  import opened Results
  import opened Model
  import opened Room
  import opened Handler

  /** The messages of `s` newest first. */
  function Reverse(s: seq<Message>): (r: seq<Message>)
    ensures |r| == |s|
    ensures forall i :: 0 <= i < |s| ==> r[i] == s[|s| - 1 - i]
    ensures forall m :: m in r <==> m in s
  {
    var r := seq(|s|, i requires 0 <= i < |s| => s[|s| - 1 - i]);
    assert forall i :: 0 <= i < |s| ==> s[i] == r[|s| - 1 - i];
    r
  }

  /** Reading newest first twice gives back the original order. */
  lemma ReverseReverse(s: seq<Message>)
    ensures Reverse(Reverse(s)) == s
  {
  }

  /** The items of `ordered` at ranks `start` to `stop`, both inclusive. */
  function RangeByRank(ordered: seq<Message>, start: int, stop: int): (r: seq<Message>)
    ensures 0 <= start && 0 <= stop ==>
              && |r| == Max(0, Min(stop + 1, |ordered|) - start)
              && (forall i :: 0 <= i < |r| ==> r[i] == ordered[start + i])
    ensures forall m :: m in r ==> m in ordered
  {
    var n := |ordered|;
    var s := if start < 0 then Max(start + n, 0) else start;
    var e := if stop < 0 then stop + n else stop;
    if s > e || s >= n then [] else ordered[s .. Min(e, n - 1) + 1]
  }

  /** A room's messages in the order a pull asks for. */
  function InOrder(store: Store, room: string, reverse: bool): seq<Message> {
    if reverse then Reverse(RoomLog(store, room)) else RoomLog(store, room)
  }

  /** Descending ranks `a` to `b` are ascending ranks `|s| - 1 - b` to `|s| - 1 - a`
      read backwards: `ZREVRANGE` is `ZRANGE` from the other end. */
  lemma {:induction false} ReverseRanks(s: seq<Message>, a: int, b: int)
    requires 0 <= a <= b < |s|
    ensures RangeByRank(Reverse(s), a, b) == Reverse(RangeByRank(s, |s| - 1 - b, |s| - 1 - a))
  {
    var down := RangeByRank(Reverse(s), a, b);
    var up := RangeByRank(s, |s| - 1 - b, |s| - 1 - a);
    assert |down| == b - a + 1 == |up|;
    forall i | 0 <= i < |down|
      ensures down[i] == Reverse(up)[i]
    {
      assert down[i] == s[|s| - 1 - (a + i)];
      assert up[|up| - 1 - i] == s[|s| - 1 - b + (b - a - i)];
    }
  }

  /** The store's reply to a pull window: it never fails, and it only returns
      messages of the window's room. */
  function Fetch(store: Store): (f: Window -> Result<seq<Message>, Error>)
    ensures forall w: Window ::
              f(w).Ok? && (forall m :: m in f(w).value ==> m in RoomLog(store, w.room))
  {
    (w: Window) => Ok(RangeByRank(InOrder(store, w.room, w.reverse), w.start, w.end))
  }

  /** `resp` is the page of `ordered` that starts at position `c`: up to `limit`
      items from there, more pages exactly when items lie beyond it, and then a next
      cursor just past it. */
  ghost predicate ServesFrom(resp: PullResponse, ordered: seq<Message>, c: int, limit: int,
                             chat: string) {
    && 0 <= c
    && |resp.messages| == Max(0, Min(|ordered| - c, limit))
    && (forall i :: 0 <= i < |resp.messages| ==> resp.messages[i] == ToRpc(ordered[c + i], chat))
    && (resp.hasMore <==> |ordered| > c + limit)
    && resp.nextCursor == (if resp.hasMore then c + limit else 0)
  }

  /** A page cut from the window `[c, c + limit]` of `ordered` serves the page of
      `ordered` that starts at `c`. */
  lemma PageOfRankWindow(resp: PullResponse, ordered: seq<Message>, c: int, limit: int,
                         end: Int64, chat: string)
    requires 0 <= c && 0 < limit && end == c + limit
    requires IsPageOf(Page(resp.messages, resp.hasMore, resp.nextCursor),
                      RangeByRank(ordered, c, end), limit, end, chat)
    ensures ServesFrom(resp, ordered, c, limit, chat)
  {
    var fetched := RangeByRank(ordered, c, end);
    assert |fetched| == Max(0, Min(end as int + 1, |ordered|) - c);
    forall i | 0 <= i < |resp.messages|
      ensures resp.messages[i] == ToRpc(ordered[c + i], chat)
    {
      assert fetched[i] == ordered[c + i];
    }
  }

  /** A pull from position `cursor` with a non-negative limit serves the page of the
      room that starts at `cursor`. */
  lemma {:induction false} PullFromMemory(store: Store, req: PullRequest)
    requires GetRoomId(req.chat).Ok?
    requires 0 <= req.cursor && 0 <= req.limit
    requires req.cursor + EffectiveLimit(req.limit) <= INT64_MAX
    ensures Pull(req, Fetch(store)).Ok?
    ensures ServesFrom(Pull(req, Fetch(store)).value,
                       InOrder(store, GetRoomId(req.chat).value, req.reverse),
                       req.cursor, EffectiveLimit(req.limit), req.chat)
  {
    var room := GetRoomId(req.chat).value;
    var ordered := InOrder(store, room, req.reverse);
    var w := RequestedWindow(req, room);
    assert w.end == req.cursor + EffectiveLimit(req.limit);
    var fetched := RangeByRank(ordered, w.start, w.end);
    assert Fetch(store)(w) == Ok(fetched);
    PullReply(req, Fetch(store), room, fetched);
    PageOfRankWindow(Pull(req, Fetch(store)).value, ordered, req.cursor,
                     EffectiveLimit(req.limit), w.end, req.chat);
  }

  /** `msgs` are the items of `ordered` from position `c` on, `count` of them, in order. */
  ghost predicate RunFrom(msgs: seq<RpcMessage>, ordered: seq<Message>, c: int, count: int,
                          chat: string) {
    && 0 <= c
    && |msgs| == count
    && forall i :: 0 <= i < |msgs| ==> c + i < |ordered| && msgs[i] == ToRpc(ordered[c + i], chat)
  }

  /** Two pages, the second starting where the first said to continue, together are
      the items from the first position on: none skipped, none repeated. */
  lemma ConsecutivePages(p1: PullResponse, p2: PullResponse, ordered: seq<Message>,
                         c: int, limit: int, chat: string)
    requires 0 <= c && 0 < limit
    requires ServesFrom(p1, ordered, c, limit, chat) && p1.hasMore
    requires ServesFrom(p2, ordered, p1.nextCursor, limit, chat)
    ensures RunFrom(p1.messages + p2.messages, ordered, c, Min(|ordered| - c, 2 * limit), chat)
  {
    var both := p1.messages + p2.messages;
    forall i | 0 <= i < |both|
      ensures c + i < |ordered| && both[i] == ToRpc(ordered[c + i], chat)
    {
      if i >= limit {
        assert both[i] == p2.messages[i - limit];
      }
    }
  }

  /** The pull from the cursor a page returned serves the page starting there. */
  lemma {:induction false} NextPageServes(store: Store, req: PullRequest,
                                          first: PullResponse, second: PullResponse)
    requires GetRoomId(req.chat).Ok?
    requires 0 <= req.cursor && 0 <= req.limit
    requires req.cursor + 2 * EffectiveLimit(req.limit) <= INT64_MAX
    requires ServesFrom(first, InOrder(store, GetRoomId(req.chat).value, req.reverse),
                        req.cursor, EffectiveLimit(req.limit), req.chat)
    requires first.hasMore
    requires Pull(PullRequest(req.chat, first.nextCursor, req.limit, req.reverse), Fetch(store))
               == Ok(second)
    ensures ServesFrom(second, InOrder(store, GetRoomId(req.chat).value, req.reverse),
                       first.nextCursor, EffectiveLimit(req.limit), req.chat)
  {
    var next := PullRequest(req.chat, first.nextCursor, req.limit, req.reverse);
    assert next.cursor == req.cursor + EffectiveLimit(req.limit);
    PullFromMemory(store, next);
  }

  /** A pull's reply, and the reply to the same pull from the cursor it returned,
      serve the pages of the room that start at the two cursors. */
  lemma {:induction false} BothPagesServe(store: Store, req: PullRequest,
                                          first: PullResponse, second: PullResponse)
    requires GetRoomId(req.chat).Ok?
    requires 0 <= req.cursor && 0 <= req.limit
    requires req.cursor + 2 * EffectiveLimit(req.limit) <= INT64_MAX
    requires Pull(req, Fetch(store)) == Ok(first) && first.hasMore
    requires Pull(PullRequest(req.chat, first.nextCursor, req.limit, req.reverse), Fetch(store))
               == Ok(second)
    ensures ServesFrom(first, InOrder(store, GetRoomId(req.chat).value, req.reverse),
                       req.cursor, EffectiveLimit(req.limit), req.chat)
    ensures ServesFrom(second, InOrder(store, GetRoomId(req.chat).value, req.reverse),
                       first.nextCursor, EffectiveLimit(req.limit), req.chat)
  {
    PullFromMemory(store, req);
    NextPageServes(store, req, first, second);
  }

  /** Following `nextCursor` continues exactly where the previous page stopped:
      `first` is a pull's reply and `second` the reply to the same pull from the
      cursor `first` returned. */
  lemma {:induction false} PagesTile(store: Store, req: PullRequest,
                                     first: PullResponse, second: PullResponse)
    requires GetRoomId(req.chat).Ok?
    requires 0 <= req.cursor && 0 <= req.limit
    requires req.cursor + 2 * EffectiveLimit(req.limit) <= INT64_MAX
    requires Pull(req, Fetch(store)) == Ok(first) && first.hasMore
    requires Pull(PullRequest(req.chat, first.nextCursor, req.limit, req.reverse), Fetch(store))
               == Ok(second)
    ensures RunFrom(first.messages + second.messages,
                    InOrder(store, GetRoomId(req.chat).value, req.reverse), req.cursor,
                    Min(|InOrder(store, GetRoomId(req.chat).value, req.reverse)| - req.cursor,
                        2 * EffectiveLimit(req.limit)),
                    req.chat)
  {
    BothPagesServe(store, req, first, second);
    ConsecutivePages(first, second, InOrder(store, GetRoomId(req.chat).value, req.reverse),
                     req.cursor, EffectiveLimit(req.limit), req.chat);
  }

  /** With 25 messages in the room, a pull of 20 from position 0 returns 20 and points
      at position 20, and the pull from there returns the remaining 5 and stops. */
  lemma TwentyFiveMessages(store: Store, chat: string)
    requires GetRoomId(chat).Ok?
    requires |RoomLog(store, GetRoomId(chat).value)| == 25
    ensures var first := Pull(PullRequest(chat, 0, 20, false), Fetch(store));
            && first.Ok? && |first.value.messages| == 20
            && first.value.hasMore && first.value.nextCursor == 20
    ensures var second := Pull(PullRequest(chat, 20, 20, false), Fetch(store));
            && second.Ok? && |second.value.messages| == 5
            && !second.value.hasMore && second.value.nextCursor == 0
  {
    PullFromMemory(store, PullRequest(chat, 0, 20, false));
    PullFromMemory(store, PullRequest(chat, 20, 20, false));
  }

  /** A reversed pull from position 0 lists the room newest first. */
  lemma PullReverseNewestFirst(store: Store, req: PullRequest)
    requires GetRoomId(req.chat).Ok?
    requires req.reverse && req.cursor == 0 && 0 <= req.limit
    ensures var log := RoomLog(store, GetRoomId(req.chat).value);
            && Pull(req, Fetch(store)).Ok?
            && var msgs := Pull(req, Fetch(store)).value.messages;
            && |msgs| == Min(|log|, EffectiveLimit(req.limit))
            && forall i :: 0 <= i < |msgs| ==> msgs[i] == ToRpc(log[|log| - 1 - i], req.chat)
  {
    PullFromMemory(store, req);
  }

  /** A message sent and then pulled at the position it was appended to comes back
      with the same sender, text and timestamp, whichever spelling of the chat (order,
      case) the reader uses, labelled with the reader's chat. */
  lemma SendThenPull(store: Store, req: SendRequest, now: Int64, chat: string, limit: Int32)
    requires ValidateSendRequest(req).Pass?
    requires GetRoomId(chat) == GetRoomId(req.chat)
    requires 0 <= limit
    requires |RoomLog(store, GetRoomId(req.chat).value)| + EffectiveLimit(limit) <= INT64_MAX
    ensures var after := Send(store, req, now, None).store;
            var cursor := |RoomLog(store, GetRoomId(req.chat).value)|;
            Pull(PullRequest(chat, cursor, limit, false), Fetch(after))
              == Ok(PullResponse(SUCCESS_CODE, SUCCESS_MSG,
                                 [RpcMessage(chat, req.text, req.sender, now)], false, 0))
  {
    var room := GetRoomId(req.chat).value;
    var after := Send(store, req, now, None).store;
    var cursor := |RoomLog(store, room)|;
    var pull := PullRequest(chat, cursor, limit, false);
    PullFromMemory(after, pull);
    var log := RoomLog(after, room);
    assert |log| == cursor + 1 && log[cursor] == Message(req.sender, req.text, now);
    var resp := Pull(pull, Fetch(after)).value;
    assert resp.messages == [RpcMessage(chat, req.text, req.sender, now)];
  }

  /** A room with no messages gives an empty last page, whatever the cursor and limit. */
  lemma PullFromEmptyRoom(store: Store, req: PullRequest)
    requires GetRoomId(req.chat).Ok?
    requires RoomLog(store, GetRoomId(req.chat).value) == []
    ensures Pull(req, Fetch(store)) == Ok(PullResponse(SUCCESS_CODE, SUCCESS_MSG, [], false, 0))
  {
    var room := GetRoomId(req.chat).value;
    assert InOrder(store, room, req.reverse) == [];
    PullEmptyRoom(req, Fetch(store));
  }
}

=== FILE: model.dfy ===
/** The records the chat handlers exchange, and the fixed-width integers they use. */
module Model {

  const INT64_MIN: int := -0x8000_0000_0000_0000
  const INT64_MAX: int := 0x7FFF_FFFF_FFFF_FFFF
  const TWO_TO_64: int := 0x1_0000_0000_0000_0000

  /** Go's `int64` (cursors, timestamps, window bounds). */
  type Int64 = x: int | -0x8000_0000_0000_0000 <= x <= 0x7FFF_FFFF_FFFF_FFFF

  /** Go's `int32` (the `limit` field of a pull request). */
  type Int32 = x: int | -0x8000_0000 <= x <= 0x7FFF_FFFF

  /** The ways a handler call can fail. */
  datatype Error =
    | InvalidChatId(chat: string)      // chat is not of the form user1:user2
    | SenderNotInRoom(sender: string)  // sender is neither participant
    | StoreFailure(reason: string)     // the message store reported an error

  /** A stored message record (sender, text under the JSON key `message`, unix seconds). */
  datatype Message = Message(sender: string, text: string, timestamp: Int64)

  /** A message as the RPC layer returns it from a pull. */
  datatype RpcMessage = RpcMessage(chat: string, text: string, sender: string, sendTime: Int64)

  /** Two's-complement wrap-around of a Go `int64` addition. */
  function WrapInt64(x: int): (r: Int64)
    ensures INT64_MIN <= x <= INT64_MAX ==> r == x
    ensures (x - r) % TWO_TO_64 == 0
  {
    (x - INT64_MIN) % TWO_TO_64 + INT64_MIN
  }
}

=== FILE: results.dfy ===
/** Failure-carrying datatypes used in place of Go's `(value, error)` returns. */
module Results {

  /** A value that may be absent: the store's reply to an insertion is `None`
      on success and `Some(e)` when the insertion fails with `e`. */
  datatype Option<+T> = None | Some(value: T)

  /** A value or the error the Go code would return alongside `nil`. */
  datatype Result<+T, +E> = Ok(value: T) | Err(error: E)

  /** A check that either passes or fails with an error (Go's `error`, `nil` on success). */
  datatype Outcome<+E> = Pass | Fail(error: E)
}

=== FILE: room.dfy ===
/** Room-key derivation (`getRoomID`): the chat `user1:user2` is lower-cased, split on
    `:`, and the two participants are emitted in ascending order, so both parties of a
    conversation address the same room whatever the order and case they write. */
module Room {
  import opened Results
  import opened Model
  import opened Strings

  const SEP: char := ':'

  /** `getRoomID`. Fails exactly when the chat does not hold exactly one `:`; on
      success the key is lower-case and is one of the two orders of the lower-cased
      participants. Empty participants (`":bob"`) are accepted. */
  function GetRoomId(chat: string): (r: Result<string, Error>)
    ensures r.Err? <==> CountChar(chat, SEP) != 1
    ensures r.Err? ==> r.error == InvalidChatId(chat)
    ensures r.Ok? ==> NoUpper(r.value)
  {
    ToLowerKeepsColons(chat);
    var parts := Split(ToLower(chat), SEP);
    if |parts| != 2 then
      Err(InvalidChatId(chat))
    else
      SegmentsNoUpper(chat);
      if Compare(parts[0], parts[1]) == 1 then Ok(parts[1] + [SEP] + parts[0])
      else Ok(parts[0] + [SEP] + parts[1])
  }

  /** The pieces of a lower-cased chat carry no upper-case letter. */
  lemma SegmentsNoUpper(chat: string)
    ensures forall i :: 0 <= i < |Split(ToLower(chat), SEP)| ==>
                         NoUpper(Split(ToLower(chat), SEP)[i])
  {
    ToLowerNoUpper(chat);
    SplitCharsFromSource(ToLower(chat), SEP);
  }

  /** `x:y`, with `x` not above `y`, splits back into `x` and `y` in lexicographic order. */
  lemma OrderedPairKey(x: string, y: string)
    requires SEP !in x && SEP !in y
    requires Compare(x, y) <= 0
    ensures Split(x + [SEP] + y, SEP) == [x, y]
    ensures LexLessEq(x, y)
  {
    SplitPair(x, SEP, y);
    CompareIsLexOrder(x, y);
  }

  /** On success the key splits back into exactly two pieces, in lexicographic order,
      which are the two lower-cased participants of the chat. */
  lemma RoomIdCanonical(chat: string)
    requires GetRoomId(chat).Ok?
    ensures var key := GetRoomId(chat).value;
            var parts := Split(key, SEP);
            && |parts| == 2
            && key == parts[0] + [SEP] + parts[1]
            && LexLessEq(parts[0], parts[1])
            && multiset(parts) == multiset(Split(ToLower(chat), SEP))
  {
    var segs := Split(ToLower(chat), SEP);
    var x, y := segs[0], segs[1];
    assert segs == [x, y];
    if Compare(x, y) == 1 {
      CompareAntisymmetric(x, y);
      OrderedPairKey(y, x);
      assert multiset([y, x]) == multiset([x, y]);
    } else {
      OrderedPairKey(x, y);
    }
  }

  /** The key does not depend on which participant is written first. */
  lemma RoomIdSymmetric(a: string, b: string)
    ensures GetRoomId(a + [SEP] + b).Ok? <==> GetRoomId(b + [SEP] + a).Ok?
    ensures GetRoomId(a + [SEP] + b).Ok? ==>
              GetRoomId(a + [SEP] + b).value == GetRoomId(b + [SEP] + a).value
  {
    CountCharConcat(a + [SEP], b, SEP);
    CountCharConcat(a, [SEP], SEP);
    CountCharConcat(b + [SEP], a, SEP);
    CountCharConcat(b, [SEP], SEP);
    if GetRoomId(a + [SEP] + b).Ok? {
      CountCharAbsent(a, SEP);
      CountCharAbsent(b, SEP);
      var la, lb := ToLower(a), ToLower(b);
      ToLowerConcat(a + [SEP], b);
      ToLowerConcat(a, [SEP]);
      ToLowerConcat(b + [SEP], a);
      ToLowerConcat(b, [SEP]);
      assert ToLower([SEP]) == [SEP];
      assert SEP !in la && SEP !in lb;
      SplitPair(la, SEP, lb);
      SplitPair(lb, SEP, la);
      CompareAntisymmetric(la, lb);
    }
  }

  /** The key does not depend on the letter case of the chat. */
  lemma RoomIdCaseInsensitive(chat: string)
    ensures GetRoomId(ToLower(chat)).Ok? <==> GetRoomId(chat).Ok?
    ensures GetRoomId(chat).Ok? ==> GetRoomId(ToLower(chat)).value == GetRoomId(chat).value
  {
    ToLowerKeepsColons(chat);
    ToLowerIdempotent(chat);
  }

  /** Chats without exactly one `:` are rejected. */
  lemma RoomIdRejectsMalformed()
    ensures GetRoomId("") == Err(InvalidChatId(""))
    ensures GetRoomId("a") == Err(InvalidChatId("a"))
    ensures GetRoomId("a:b:c") == Err(InvalidChatId("a:b:c"))
  {
    assert CountChar("a:b:c", SEP) == 2;
  }

  /** The key of `a:b` for participants without `:` is the two lower-cased
      participants, smaller first. */
  lemma RoomIdOfPair(a: string, b: string)
    requires SEP !in a && SEP !in b
    ensures var la, lb := ToLower(a), ToLower(b);
            GetRoomId(a + [SEP] + b) ==
              if Compare(la, lb) <= 0 then Ok(la + [SEP] + lb) else Ok(lb + [SEP] + la)
  {
    var la, lb := ToLower(a), ToLower(b);
    ToLowerConcat(a + [SEP], b);
    ToLowerConcat(a, [SEP]);
    assert ToLower([SEP]) == [SEP];
    assert SEP !in la && SEP !in lb;
    SplitPair(la, SEP, lb);
  }

  /** An empty participant is not rejected. */
  lemma RoomIdAcceptsEmptyParticipant()
    ensures GetRoomId(":bob") == Ok(":bob")
  {
    RoomIdOfPair("", "bob");
    assert "" + [SEP] + "bob" == ":bob";
    assert ToLower("bob") == "bob";
  }

  /** Order and case of the participants are normalised. */
  lemma RoomIdNormalises()
    ensures GetRoomId("Bob:alice") == Ok("alice:bob")
  {
    RoomIdOfPair("Bob", "alice");
    assert "Bob" + [SEP] + "alice" == "Bob:alice";
    assert LowerChar('B') == 'b';
    var lb := ToLower("Bob");
    assert lb[0] == 'b' && lb[1] == 'o' && lb[2] == 'b';
    assert lb == "bob";
    var la := ToLower("alice");
    assert la == "alice";
    assert Compare(lb, la) == 1;
    assert la + [SEP] + lb == "alice:bob";
  }
}

=== FILE: strings.dfy ===
/** The pieces of Go's `strings` package the handlers rely on: `ToLower` (restricted
    to ASCII letters), `Split` on a single separator character, and `Compare`. */
module Strings {

  /** An ASCII upper-case letter. */
  predicate IsUpper(c: char) {
    'A' <= c <= 'Z'
  }

  /** No character of `s` is an ASCII upper-case letter. */
  predicate NoUpper(s: string) {
    forall i :: 0 <= i < |s| ==> !IsUpper(s[i])
  }

  function LowerChar(c: char): (d: char)
    ensures !IsUpper(d)
    ensures !IsUpper(c) ==> d == c
    ensures d == ':' <==> c == ':'
  {
    if IsUpper(c) then (c as int + 32) as char else c
  }

  /** Lower-cases every ASCII letter of `s` and leaves every other character alone. */
  function ToLower(s: string): (r: string)
    ensures |r| == |s|
    ensures forall i :: 0 <= i < |s| ==> r[i] == LowerChar(s[i])
  {
    seq(|s|, i requires 0 <= i < |s| => LowerChar(s[i]))
  }

  /** Number of occurrences of `c` in `s`. */
  function CountChar(s: string, c: char): nat
  {
    if |s| == 0 then 0
    else (if s[0] == c then 1 else 0) + CountChar(s[1..], c)
  }

  /** `s` ends with `suffix`. */
  predicate EndsWith(s: string, suffix: string) {
    |suffix| <= |s| && s[|s| - |suffix|..] == suffix
  }

  /** Go's `strings.Split(s, string(sep))`: the maximal `sep`-free pieces of `s`,
      in order. The empty string splits into one empty piece. */
  function Split(s: string, sep: char): (parts: seq<string>)
    ensures |parts| == CountChar(s, sep) + 1
    ensures forall i :: 0 <= i < |parts| ==> sep !in parts[i]
    decreases |s|
  {
    if |s| == 0 then [""]
    else
      var rest := Split(s[1..], sep);
      if s[0] == sep then [""] + rest
      else [[s[0]] + rest[0]] + rest[1..]
  }

  /** Go's `strings.Join(parts, string(sep))`. */
  function Join(parts: seq<string>, sep: char): string
  {
    if |parts| == 0 then ""
    else if |parts| == 1 then parts[0]
    else parts[0] + [sep] + Join(parts[1..], sep)
  }

  /** Go's `strings.Compare`: -1, 0 or +1 as `a` is below, equal to or above `b`
      in lexicographic order of code points (which is the byte order of UTF-8). */
  function Compare(a: string, b: string): (r: int)
    ensures -1 <= r <= 1
    ensures r == 0 <==> a == b
  {
    if |a| == 0 && |b| == 0 then 0
    else if |a| == 0 then -1
    else if |b| == 0 then 1
    else if a[0] < b[0] then -1
    else if a[0] > b[0] then 1
    else
      assert a == [a[0]] + a[1..] && b == [b[0]] + b[1..];
      Compare(a[1..], b[1..])
  }

  /** Reference definition of lexicographic order: `a` is a prefix of `b`, or at the
      first position where they differ `a` has the smaller character. */
  ghost predicate LexLessEq(a: string, b: string) {
    a <= b || exists k :: 0 <= k < |a| && k < |b| && a[..k] == b[..k] && a[k] < b[k]
  }

  // ---------------------------------------------------------------- ToLower

  lemma ToLowerIdempotent(s: string)
    ensures ToLower(ToLower(s)) == ToLower(s)
  {
  }

  lemma ToLowerNoUpper(s: string)
    ensures NoUpper(ToLower(s))
  {
  }

  lemma ToLowerConcat(a: string, b: string)
    ensures ToLower(a + b) == ToLower(a) + ToLower(b)
  {
  }

  /** Lower-casing neither adds nor removes any `:`. */
  lemma {:induction false} ToLowerKeepsColons(s: string)
    ensures CountChar(ToLower(s), ':') == CountChar(s, ':')
    decreases |s|
  {
    if |s| > 0 {
      assert ToLower(s)[1..] == ToLower(s[1..]);
      ToLowerKeepsColons(s[1..]);
    }
  }

  // ---------------------------------------------------------------- CountChar

  lemma {:induction false} CountCharConcat(a: string, b: string, c: char)
    ensures CountChar(a + b, c) == CountChar(a, c) + CountChar(b, c)
    decreases |a|
  {
    if |a| > 0 {
      assert (a + b)[1..] == a[1..] + b;
      CountCharConcat(a[1..], b, c);
    } else {
      assert a + b == b;
    }
  }

  lemma {:induction false} CountCharAbsent(s: string, c: char)
    ensures CountChar(s, c) == 0 <==> c !in s
    decreases |s|
  {
    if |s| > 0 {
      assert s == [s[0]] + s[1..];
      CountCharAbsent(s[1..], c);
    }
  }

  // ---------------------------------------------------------------- Split / Join

  /** Splitting and joining again gives back the original string. */
  lemma {:induction false} JoinSplit(s: string, sep: char)
    ensures Join(Split(s, sep), sep) == s
    decreases |s|
  {
    if |s| > 0 {
      var rest := Split(s[1..], sep);
      JoinSplit(s[1..], sep);
      if s[0] == sep {
        assert Split(s, sep) == [""] + rest;
        assert ([""] + rest)[1..] == rest;
      } else {
        if |rest| == 1 {
          assert Split(s, sep) == [[s[0]] + rest[0]];
        } else {
          var parts := Split(s, sep);
          assert parts[1..] == rest[1..];
          assert Join(rest, sep) == rest[0] + [sep] + Join(rest[1..], sep);
        }
      }
    }
  }

  /** A string without the separator is a single piece. */
  lemma {:induction false} SplitNoSep(s: string, sep: char)
    requires sep !in s
    ensures Split(s, sep) == [s]
    decreases |s|
  {
    if |s| > 0 {
      SplitNoSep(s[1..], sep);
      assert [s[0]] + s[1..] == s;
    }
  }

  /** A separator-free prefix followed by the separator becomes the first piece. */
  lemma {:induction false} SplitAtFirstSep(a: string, sep: char, t: string)
    requires sep !in a
    ensures Split(a + [sep] + t, sep) == [a] + Split(t, sep)
    decreases |a|
  {
    if |a| == 0 {
      assert a + [sep] + t == [sep] + t;
      assert ([sep] + t)[1..] == t;
    } else {
      assert (a + [sep] + t)[1..] == a[1..] + [sep] + t;
      SplitAtFirstSep(a[1..], sep, t);
      assert [a[0]] + a[1..] == a;
    }
  }

  /** Joining separator-free pieces and splitting again gives back the pieces. */
  lemma {:induction false} SplitJoin(parts: seq<string>, sep: char)
    requires |parts| > 0
    requires forall i :: 0 <= i < |parts| ==> sep !in parts[i]
    ensures Split(Join(parts, sep), sep) == parts
    decreases |parts|
  {
    if |parts| == 1 {
      SplitNoSep(parts[0], sep);
    } else {
      SplitJoin(parts[1..], sep);
      SplitAtFirstSep(parts[0], sep, Join(parts[1..], sep));
      assert [parts[0]] + parts[1..] == parts;
    }
  }

  /** The two pieces of `a:b` when neither contains the separator. */
  lemma SplitPair(a: string, sep: char, b: string)
    requires sep !in a && sep !in b
    ensures Split(a + [sep] + b, sep) == [a, b]
  {
    SplitJoin([a, b], sep);
    assert Join([a, b], sep) == a + [sep] + b;
  }

  /** Every character of every piece comes from the split string. */
  lemma {:induction false} SplitCharsFromSource(s: string, sep: char)
    ensures forall i, j :: 0 <= i < |Split(s, sep)| && 0 <= j < |Split(s, sep)[i]| ==>
                             Split(s, sep)[i][j] in s
    decreases |s|
  {
    if |s| > 0 {
      SplitCharsFromSource(s[1..], sep);
      var rest := Split(s[1..], sep);
      var parts := Split(s, sep);
      forall i, j | 0 <= i < |parts| && 0 <= j < |parts[i]|
        ensures parts[i][j] in s
      {
        if s[0] == sep {
          assert parts[i] == ([""] + rest)[i];
          assert i > 0 && parts[i] == rest[i - 1];
          assert parts[i][j] in s[1..];
        } else if i == 0 {
          assert parts[0] == [s[0]] + rest[0];
          if j > 0 {
            assert parts[0][j] == rest[0][j - 1];
            assert parts[0][j] in s[1..];
          }
        } else {
          assert parts[i] == rest[i];
          assert parts[i][j] in s[1..];
        }
      }
    }
  }

  // ---------------------------------------------------------------- Compare

  /** Swapping the arguments negates the comparison. */
  lemma {:induction false} CompareAntisymmetric(a: string, b: string)
    ensures Compare(b, a) == -Compare(a, b)
    decreases |a|
  {
    if |a| > 0 && |b| > 0 && a[0] == b[0] {
      CompareAntisymmetric(a[1..], b[1..]);
    }
  }

  /** A first difference of `a` and `b` after a common first character is a
      first difference of their tails, one position earlier. */
  lemma FirstDifferenceOfTails(a: string, b: string, k: int)
    requires |a| > 0 && |b| > 0 && a[0] == b[0]
    requires 0 <= k < |a| && k < |b| && a[..k] == b[..k] && a[k] < b[k]
    ensures 0 < k && a[1..][..k - 1] == b[1..][..k - 1] && a[1..][k - 1] < b[1..][k - 1]
  {
    assert a[1..][..k - 1] == a[..k][1..] && b[1..][..k - 1] == b[..k][1..];
  }

  /** A first difference of the tails is one of `a` and `b`, one position later. */
  lemma FirstDifferenceOfWhole(a: string, b: string, k: int)
    requires |a| > 0 && |b| > 0 && a[0] == b[0]
    requires 0 <= k < |a| - 1 && k < |b| - 1 && a[1..][..k] == b[1..][..k] && a[1..][k] < b[1..][k]
    ensures a[..k + 1] == b[..k + 1] && a[k + 1] < b[k + 1]
  {
    assert a[..k + 1] == [a[0]] + a[1..][..k] && b[..k + 1] == [b[0]] + b[1..][..k];
  }

  /** Dropping a common first character does not change lexicographic order. */
  lemma LexLessEqCommonHead(a: string, b: string)
    requires |a| > 0 && |b| > 0 && a[0] == b[0]
    ensures LexLessEq(a, b) <==> LexLessEq(a[1..], b[1..])
  {
    var a', b' := a[1..], b[1..];
    assert a == [a[0]] + a' && b == [b[0]] + b';
    assert a <= b <==> a' <= b';
    if k :| 0 <= k < |a| && k < |b| && a[..k] == b[..k] && a[k] < b[k] {
      FirstDifferenceOfTails(a, b, k);
    }
    if k :| 0 <= k < |a'| && k < |b'| && a'[..k] == b'[..k] && a'[k] < b'[k] {
      FirstDifferenceOfWhole(a, b, k);
    }
  }

  /** When the first characters differ, they alone decide lexicographic order. */
  lemma LexLessEqHeadsDiffer(a: string, b: string)
    requires |a| > 0 && |b| > 0 && a[0] != b[0]
    ensures LexLessEq(a, b) <==> a[0] < b[0]
  {
    if a[0] < b[0] {
      assert a[..0] == b[..0];
    } else {
      assert !(a <= b);
    }
  }

  /** `Compare` agrees with the reference lexicographic order. */
  lemma {:induction false} CompareIsLexOrder(a: string, b: string)
    ensures Compare(a, b) <= 0 <==> LexLessEq(a, b)
    decreases |a|
  {
    if |a| == 0 {
      assert a <= b;
    } else if |b| == 0 {
      assert !(a <= b);
    } else if a[0] != b[0] {
      LexLessEqHeadsDiffer(a, b);
    } else {
      CompareIsLexOrder(a[1..], b[1..]);
      LexLessEqCommonHead(a, b);
    }
  }
}
